=== FILE: README.md ===
# mkbsd in Dafny

A model of the core of `mkbsd.py`, a script that fetches a JSON manifest,
picks the image URLs out of it, and downloads each image to
`downloads/<index><ext>`. It retries each download a bounded number of times
and waits a fixed pacing delay after each image.

The model covers:

- **Task derivation** (module `Tasks`). The manifest's `data` mapping, in
  iteration order, becomes a list of tasks. An entry takes part when it is
  truthy and its `dhd` field is truthy. Each such entry gets the next index,
  starting at 1.
- **Extension and file name** (modules `PathExt`, `Decimal`, `Tasks`). The
  extension is `os.path.splitext` (POSIX flavour) of the URL's path. When
  that is empty, `.jpg` is used. The file name is `str(index)` followed by
  the extension.
  - `SplitExt` states the documented rule of `splitext`.
  - `SplitExtScan` is the library's scanning loop, proved to agree with the
    rule.
- **The retry loop of `download_image`** (module `Retry`). Each attempt's
  outcome is an abstract value: a response with a status and whether the
  write completed, or a transport error. The loop is a trace of events:
  request, write, warning, backoff, final error.
- **The run of `main`** (module `Run`). This covers the manifest checks, the
  directory creation and the loop over the tasks. Each task contributes
  four events: found, download, "saved" message, pacing delay.

Network answers, the URL parser and the directory's existence are
parameters. Attempt outcomes are total functions from the 0-based attempt
number. `network(i)` gives the outcomes for the task with index `i`.

Behaviours of the code that the model keeps:

- The `downloads` directory is created after the manifest has been fetched
  and checked, not before.
- A manifest whose `data` mapping is empty is rejected like a missing one.
- The pacing delay follows every task, the last one included; it is not
  only placed between downloads.
- A failed file write inside an attempt is handled like a non-200 status
  and is retried.
- The "Saved image" message is printed after every call of
  `download_image`, whether or not the file was written.

## Model

| member | source | states |
|---|---|---|
| Decimal.NatToString | mkbsd.py:64 | `str(index)`: at least one digit, all digits, and no leading zero unless the number is 0. That it is the decimal text is stated by Decimal.ParseNatToString, and that a number below 10 is its single digit (so 0 is `"0"`) by Decimal.NatToStringSingleDigit. |
| Decimal.NatToStringSingleDigit | mkbsd.py:64 | A number below 10 is rendered as exactly one character, the digit of that value; in particular 0 is `"0"`. |
| Decimal.ParseNatToString | mkbsd.py:64 | The decimal text of a file index reads back as the same index, so different indices give different name prefixes. |
| Decimal.NatToStringInjective | mkbsd.py:64 | Two indices have the same decimal text exactly when they are equal. |
| PathExt.SplitExt | mkbsd.py:63 | The root and the extension concatenate back to the path. The extension is empty or a dot followed by neither dots nor `/`. A non-empty extension leaves a non-dot name character in the root. An empty extension means the name has no dot after its leading dots. |
| PathExt.SplitExtScan | mkbsd.py:63 | The library's scan (last `/`, last `.`, walk over leading dots) gives exactly the rule-based split. |
| PathExt.Extension | mkbsd.py:63 | The extension used always starts with `.` and holds no further `.` or `/`. A non-empty split extension is kept as it is, and the default `.jpg` replaces the split extension exactly when that is empty. |
| PathExt.ExtensionIsSuffix | mkbsd.py:62-63 | When the path has an extension of its own, the extension used is a suffix of the path; otherwise it is `.jpg`. |
| PathExt.ExampleImagePng | mkbsd.py:63 | `/image.png` splits into `/image` and `.png`. |
| PathExt.ExampleNoExtension | mkbsd.py:63 | `/image` has no extension and gets `.jpg`. |
| PathExt.ExampleLeadingDot | mkbsd.py:63 | The leading dot of `/.png` is not an extension, so `.jpg` is used. |
| PathExt.ExampleTrailingDot | mkbsd.py:63 | `/a.` has the extension `.`. |
| PathExt.ExampleDotInDirectory | mkbsd.py:63 | A dot in a directory segment, as in `/a.b/c`, is not an extension. |
| Tasks.Qualifies | mkbsd.py:59 | `subproperty and subproperty.get('dhd')`: the entry is truthy and its `dhd` is a non-empty string. Its effect is stated by Tasks.SkippedEntryHasNoEffect and Tasks.DeriveTasks. |
| Tasks.QualifyingUrls | mkbsd.py:58-60 | The `dhd` URLs of the qualifying entries in mapping order, never more than the entries. It is the reference list against which Tasks.DeriveTasks states the tasks, and Tasks.QualifyingUrlsAppend states how it splits. |
| Tasks.FileNameOf | mkbsd.py:64 | `f"{file_index}{ext}"`; a task's `FileName()` is this name for its own index and extension. Its properties are stated by Tasks.FileNameIndexPrefix and Tasks.FileNamesDistinct, and for the tasks of a run by Tasks.TaskFileNamesStartWithIndex and Tasks.TaskFileNamesDistinct. |
| Tasks.TaskFor | mkbsd.py:62-64 | The task for a qualifying URL: its index, the URL, and the Extension of the parsed path only. Stated by Tasks.DeriveTasks and Tasks.FileNameIgnoresQueryAndFragment. |
| Tasks.TasksFrom | mkbsd.py:57-71 | The loop over the mapping with `file_index` starting at `next`; it makes one task per qualifying entry. Its numbering is stated by Tasks.TasksFromNumbering. |
| Tasks.QualifyingUrlsAppend | mkbsd.py:58-60 | Filtering a concatenation of mappings is concatenating the filtered parts. |
| Tasks.FileNameIndexPrefix | mkbsd.py:64 | The part of a file name before its first dot is the decimal index. |
| Tasks.FileNamesDistinct | mkbsd.py:64 | File names of different indices differ, whatever their extensions. |
| Tasks.TasksFromNumbering | mkbsd.py:57-71 | The loop from index `next` gives its i-th qualifying URL the index `next + i` and the extension of that URL's path. |
| Tasks.DeriveTasks | mkbsd.py:57-71 | There is one task per qualifying entry, in mapping order. Task i has index i + 1 (so the indices are 1..K), the i-th qualifying URL, and the extension of that URL's parsed path. |
| Tasks.TasksDetermined | mkbsd.py:58-59 | The tasks depend on the mapping only through its qualifying URLs. |
| Tasks.SkippedEntryHasNoEffect | mkbsd.py:59 | Inserting a non-qualifying entry anywhere in the mapping changes no task. |
| Tasks.TaskFileNamesStartWithIndex | mkbsd.py:64 | Every task's file name starts with its index, up to the first dot. |
| Tasks.TaskFileNamesDistinct | mkbsd.py:57-71 | No two tasks of a run share a file name. |
| Tasks.FileNameIgnoresQueryAndFragment | mkbsd.py:62-64 | Two URLs whose parsed paths agree get the same file name for the same index. This holds whatever their query, fragment, host or scheme. |
| Tasks.ExampleExtensions | mkbsd.py:63 | `/img1.png` gives `.png` and `/img2` gives `.jpg`. |
| Tasks.ExampleQualifyingUrls | mkbsd.py:58-59 | A falsy entry between two image entries is skipped. |
| Tasks.ExampleFileNames | mkbsd.py:64 | Tasks 1 and 2 are saved as `1.png` and `2.jpg`. |
| Tasks.ExampleTwoImages | mkbsd.py:57-71 | A three-entry manifest with one falsy entry yields exactly two tasks, numbered 1 and 2. |
| Retry.AttemptsFrom | mkbsd.py:17-32 | The loop from a given 0-based attempt on. Its shape is stated by Retry.DownloadTraceShape, Retry.BackoffOnlyBeforeRetry and Retry.OnlySuccessMatters. |
| Retry.DownloadTrace | mkbsd.py:15-32 | The events of one call of `download_image`. Its counts and its write are stated by Retry.SuccessCounts, Retry.FailureCounts and Retry.WrittenIffSomeAttemptSucceeds, and Retry.DownloadImage is proved to produce it. |
| Retry.Succeeds | mkbsd.py:20-27 | An attempt succeeds when the status is exactly 200 and the body is read and the file opened and written without raising. Any other status, a transport error or a failed write is a failure. Stated by Retry.WrittenIffSomeAttemptSucceeds and Retry.OnlySuccessMatters. |
| Retry.DownloadImage | mkbsd.py:15-32 | The loop, written as a loop with early return, produces the attempt trace. |
| Retry.DownloadTraceShape | mkbsd.py:17-32 | With `retries <= 0` nothing happens. If attempt k+1 is the first success, there are k failed attempts, each with a warning and a backoff, then the request and the write. If every attempt fails, there are retries-1 such failed attempts, then the last request and the final error. |
| Retry.SuccessCounts | mkbsd.py:17-30 | Success on attempt k+1 means k+1 requests, one write, k warnings, k backoffs and no final error, and the write is the last event. |
| Retry.FailureCounts | mkbsd.py:17-32 | When all attempts fail there are `retries` requests, no write, retries-1 warnings and backoffs, and one final error, which is the last event. |
| Retry.FirstSuccessExists | mkbsd.py:17-24 | If some attempt within the bound succeeds, a first one does. |
| Retry.WrittenIffSomeAttemptSucceeds | mkbsd.py:17-32 | The file is written at most once, and exactly when some attempt within the bound gets status 200 and completes its write. There are at most `retries` requests, and none when `retries <= 0`. |
| Retry.BackoffOnlyBeforeRetry | mkbsd.py:28-32 | Every backoff is immediately followed by another request, so no delay follows the last attempt. |
| Retry.OnlySuccessMatters | mkbsd.py:19-27 | A non-200 status, a transport error and a failed write lead to the same trace: only which attempts succeed matters. |
| Retry.ExampleThirdAttemptSucceeds | mkbsd.py:15-32 | With the default of three attempts, two failures and a success give the full eight-event trace. |
| Run.ManifestUsable | mkbsd.py:41-48 | The manifest checks: status 200, a JSON object, and a truthy `data` mapping. What failing them does is stated by Run.FatalPath. |
| Run.TaskBlock | mkbsd.py:61-72 | The four events of one task: found, the call of `download_image` with the default three attempts, the "saved" message, and the 250 ms delay. Stated position by position by Run.RunShape. |
| Run.LoopFrom | mkbsd.py:57-72 | The loop over `data.items()` that downloads as it goes. Run.LoopFollowsTasks states that it runs the derived tasks in order. |
| Run.RunTrace | mkbsd.py:40-75 | The trace of `main`: the fatal error alone when the manifest checks fail, otherwise the optional directory creation and the loop. Its contract is stated by Run.FatalPath, Run.MakeDirWhenMissing, Run.RunShape, Run.TaskWrittenIff and Run.RunEndsWithPace. |
| Run.LoopFollowsTasks | mkbsd.py:57-72 | Downloading while walking the mapping gives the same events as deriving the tasks first and then running them in order. |
| Run.TaskEventsBlocks | mkbsd.py:58-72 | Task i's four events sit at positions 4i to 4i+3 of the task events. |
| Run.TaskEventsNotFatal | mkbsd.py:58-72 | No task event is the fatal error: per-task failures never end the run. |
| Run.TaskEventsMakeNoDir | mkbsd.py:58-72 | The loop creates no directory. |
| Run.RunTraceTasks | mkbsd.py:40-72 | A usable manifest gives the optional directory creation followed by the events of the derived tasks. |
| Run.FatalPath | mkbsd.py:40-48 | The run is only the fatal error exactly when the manifest is unusable, meaning a non-200 status, a body that is not a JSON object, or a missing or falsy `data`. Then no directory is made and nothing is downloaded. A usable manifest never hits the fatal error. |
| Run.MakeDirWhenMissing | mkbsd.py:51-54 | The directory is created exactly when it was missing, and then as the first event. |
| Run.ShiftBlocks | mkbsd.py:51-72 | Events before the task loop shift every task block by their number. |
| Run.RunShape | mkbsd.py:40-72 | A usable manifest gives exactly four events per qualifying entry after the optional directory creation. The blocks come in mapping order: found, download of that task (whatever earlier downloads did), "saved", and the 250 ms delay. |
| Run.BlockWritten | mkbsd.py:68-69 | The download event of a task block records a write exactly when one of that task's attempts succeeds, and the "saved" message for that task follows it. |
| Run.TaskWrittenIff | mkbsd.py:68-69 | Task i's file is written exactly when one of its three attempts succeeds. The "saved" message for task i follows its download either way. |
| Run.LastBlockPaced | mkbsd.py:72 | The last task block ends with the pacing delay. |
| Run.RunEndsWithPace | mkbsd.py:57-72 | A run that found an image ends with a pacing delay, the last task included. A run that found none ends right after the optional directory creation. |

## Left out

- HTTP (`aiohttp`): every response is an abstract value. The model has no status other than the integer, no headers, and no body bytes. So it does not state that the written file holds the response body.
- `urlparse`: it is a parameter, and only the path component of its result is used.
- Run.FatalPath: its promise that a usable manifest never ends in the fatal error holds only when `urlparse` accepts every `dhd` URL. The program's `urlparse` raises `ValueError` for some URLs (an unclosed `[` in the host, for one). That happens at line 62, after "Found image URL!" is printed; the error reaches the handler at lines 74-75 and ends the run. The model's parser is a parameter that cannot fail. Run.RunShape's four events per qualifying entry rest on the same assumption.
- A failing `os.makedirs` (line 53, a permission error for one): in the program the error reaches the handler at lines 74-75 and ends the run before any download. The model's directory creation always succeeds.
- Windows path rules: there `os.path.splitext` is the NT flavour, which also treats `\` as a separator. PathExt.SplitExt states the POSIX rule only.
- JSON parsing: the manifest is given already parsed, as an iteration-ordered list of entries. JSON values are reduced to what the checks read.
- File system: the directory's existence is a parameter, and writes are events. A write that raises after the file was opened (leaving a truncated file) is only an unsuccessful attempt. The partial file is not modelled.
- `asyncio` and real sleeping: delays are events carrying their length in milliseconds.
- Message text (emoji, the formatted exception text, the file path in "Saved image"): events carry the numbers the messages contain, not the text.
- `os.path.join` and `os.getcwd`: the model gives the file name, not the full path.
- Values of the wrong type: an entry that is truthy but not a mapping, or whose `dhd` value is truthy but not a string, makes Python raise `AttributeError` or `TypeError` in the middle of the loop. A `data` value that is truthy but not a mapping raises at `data.items()` (line 58), after the optional directory creation and before any task. Either error reaches the handler at lines 74-75 and ends the run. Such values are outside the model's types.
- Messages and delays that raise: the model takes every `print` and `delay` not to raise.
  - The warning and final-error messages and the backoff delay (lines 29-32) run outside the inner `try` of `download_image`. A raising `print` there, such as a broken pipe on a closed standard output, would end that download at its outer handler (lines 33-34) with no further attempts.
  - The messages at lines 54, 61 and 69 and the pacing delay at line 72 run inside `main`'s `try`. A raise there would end the whole run at lines 74-75. Run.RunShape's four events per qualifying entry rest on this assumption.
- `ascii_art`, the banner and the event-loop setup at lines 77-105: presentation and start-up only.

=== FILE: decimal.dfy ===
/**
  Decimal rendering of natural numbers, as Python's `str` renders a
  non-negative `int`: the shortest string of ASCII digits, with no sign and
  no leading zero. The file index of a download task is turned into text this
  way before the extension is appended.
 */
module Decimal {

  predicate IsDigit(c: char) {
    '0' <= c <= '9'
  }

  predicate AllDigits(s: string) {
    forall i :: 0 <= i < |s| ==> IsDigit(s[i])
  }

  function DigitChar(d: nat): (c: char)
    requires d < 10
    ensures IsDigit(c)
    ensures c as int - '0' as int == d
  {
    ['0', '1', '2', '3', '4', '5', '6', '7', '8', '9'][d]
  }

  function DigitValue(c: char): (d: nat)
    requires IsDigit(c)
    ensures d < 10
    ensures DigitChar(d) == c
  {
    c as int - '0' as int
  }

  /** Python's `str(n)` for `n >= 0`. */
  function NatToString(n: nat): (s: string)
    ensures |s| >= 1
    ensures AllDigits(s)
    ensures s[0] == '0' ==> n == 0
    decreases n
  {
    if n < 10 then [DigitChar(n)] else NatToString(n / 10) + [DigitChar(n % 10)]
  }

  /** A number below ten is rendered as its single digit, so 0 is `"0"`
      (and not, say, `"00"`). */
  lemma NatToStringSingleDigit(n: nat)
    requires n < 10
    ensures |NatToString(n)| == 1 && DigitValue(NatToString(n)[0]) == n
  {
  }

  /** The value of a string of decimal digits (the empty string reads as 0). */
  function ParseNat(s: string): (n: nat)
    requires AllDigits(s)
    decreases |s|
  {
    if |s| == 0 then 0 else ParseNat(s[..|s| - 1]) * 10 + DigitValue(s[|s| - 1])
  }

  /** Reading back the rendered text gives the number again. */
  lemma {:induction false} ParseNatToString(n: nat)
    ensures ParseNat(NatToString(n)) == n
    decreases n
  {
    var s := NatToString(n);
    if n >= 10 {
      ParseNatToString(n / 10);
      assert s[..|s| - 1] == NatToString(n / 10);
    }
  }

  /** Different numbers are rendered as different strings. */
  lemma NatToStringInjective(m: nat, n: nat)
    ensures NatToString(m) == NatToString(n) <==> m == n
  {
    if NatToString(m) == NatToString(n) {
      ParseNatToString(m);
      ParseNatToString(n);
    }
  }
}

=== FILE: pathext.dfy ===
/**
  Extension derivation for a download's file name. The program applies
  Python's `os.path.splitext` (POSIX flavour: separator `/`, extension
  separator `.`) to the path component of the image URL and falls back to
  `.jpg` when the extension is empty.

  `splitext`'s documented rule: the extension is everything from the last
  dot of the last path segment, ignoring leading dots of that segment.
  `SplitExt` states that rule; `SplitExtScan` is the scanning algorithm the
  Python library uses (`rfind` of both separators, then a walk over the
  segment's leading dots), proved to agree with it.
 */
module PathExt {

  const Sep: char := '/'
  const ExtSep: char := '.'

  /** The extension used when the URL path has none. */
  const DefaultExt: string := ".jpg"

  /** `r` is the index of the last `c` in `s`, or -1 when `s` holds no `c`. */
  predicate IsLastIndex(s: string, c: char, r: int) {
    && -1 <= r < |s|
    && (r >= 0 ==> s[r] == c)
    && (forall j :: r < j < |s| ==> s[j] != c)
  }

  /** Python's `str.rfind` for a single character. */
  function LastIndexOf(s: string, c: char): (r: int)
    ensures IsLastIndex(s, c, r)
    decreases |s|
  {
    if |s| == 0 then -1
    else if s[|s| - 1] == c then |s| - 1
    else LastIndexOf(s[..|s| - 1], c)
  }

  /** There is only one last index, so `IsLastIndex` pins down `LastIndexOf`. */
  lemma LastIndexUnique(s: string, c: char, r: int)
    requires IsLastIndex(s, c, r)
    ensures LastIndexOf(s, c) == r
  {
  }

  /** The number of dots a segment starts with. */
  function LeadingDots(seg: string): (n: nat)
    ensures n <= |seg|
    ensures forall j :: 0 <= j < n ==> seg[j] == ExtSep
    ensures n < |seg| ==> seg[n] != ExtSep
    decreases |seg|
  {
    if |seg| > 0 && seg[0] == ExtSep then 1 + LeadingDots(seg[1..]) else 0
  }

  /** Where the last path segment starts: just after the last `/`, or at 0. */
  function SegmentStart(p: string): (s: nat)
    ensures s <= |p|
    ensures forall j :: s <= j < |p| ==> p[j] != Sep
    ensures s > 0 ==> p[s - 1] == Sep
  {
    LastIndexOf(p, Sep) + 1
  }

  /** Where the last segment's name starts once its leading dots are skipped. */
  function NameStart(p: string): (n: nat)
    ensures SegmentStart(p) <= n <= |p|
    ensures forall j :: SegmentStart(p) <= j < n ==> p[j] == ExtSep
    ensures n < |p| ==> p[n] != ExtSep
  {
    var s := SegmentStart(p);
    var k := LeadingDots(p[s..]);
    assert forall j :: s <= j < s + k ==> p[j] == p[s..][j - s];
    s + k
  }

  /** An extension as `splitext` returns it: empty, or a dot followed by
      characters that are neither dots nor separators. */
  predicate IsSplitExtension(e: string) {
    e == [] || (e[0] == ExtSep && forall j :: 1 <= j < |e| ==> e[j] != ExtSep && e[j] != Sep)
  }

  /** `os.path.splitext(p)` by its documented rule: the extension starts at
      the last dot of the last segment, unless that dot is one of the
      segment's leading dots, in which case there is no extension. */
  function SplitExt(p: string): (r: (string, string))
    ensures r.0 + r.1 == p
    ensures IsSplitExtension(r.1)
    // A non-empty extension leaves the name's first character, which is
    // not a dot, in the root.
    ensures r.1 != [] ==> NameStart(p) < |r.0|
    // An empty extension means the name has no dot at all.
    ensures r.1 == [] ==> forall j :: NameStart(p) <= j < |p| ==> p[j] != ExtSep
  {
    var d := LastIndexOf(p, ExtSep);
    if d >= NameStart(p) then
      assert d != NameStart(p);
      (p[..d], p[d..])
    else
      (p, [])
  }

  /** The extension the program uses for a URL path: `splitext`'s extension,
      or `.jpg` when that is empty. */
  function Extension(path: string): (ext: string)
    ensures |ext| >= 1 && ext[0] == ExtSep
    ensures forall j :: 0 < j < |ext| ==> ext[j] != ExtSep && ext[j] != Sep
    ensures ext == DefaultExt || ext == SplitExt(path).1
    ensures SplitExt(path).1 == [] ==> ext == DefaultExt
    ensures SplitExt(path).1 != [] ==> ext == SplitExt(path).1
  {
    var e := SplitExt(path).1;
    if e == [] then DefaultExt else e
  }

  /** Whenever the path has an extension of its own, the extension used is
      a suffix of the path (so it was taken from the path and from nothing
      else, such as a query or a fragment). */
  lemma ExtensionIsSuffix(path: string)
    ensures SplitExt(path).1 != [] ==> |Extension(path)| <= |path| && path[|path| - |Extension(path)|..] == Extension(path)
    ensures Extension(path) == DefaultExt || (|Extension(path)| <= |path| && path[|path| - |Extension(path)|..] == Extension(path))
  {
    var (root, e) := SplitExt(path);
    if e != [] {
      assert path == root + e;
      assert path[|root|..] == e;
    }
  }

  /** The scan Python's library performs for `splitext`: find the last `/`
      and the last `.`; if the dot is past the separator, walk from the
      start of the segment towards the dot and split at the dot on meeting
      a character that is not a dot; otherwise there is no extension. */
  method SplitExtScan(p: string) returns (root: string, ext: string)
    ensures (root, ext) == SplitExt(p)
  {
    var sepIndex := LastIndexOf(p, Sep);
    var dotIndex := LastIndexOf(p, ExtSep);
    if dotIndex > sepIndex {
      var i := sepIndex + 1;
      while i < dotIndex
        invariant sepIndex + 1 <= i <= dotIndex
        invariant forall j :: sepIndex + 1 <= j < i ==> p[j] == ExtSep
      {
        if p[i] != ExtSep {
          // The segment's leading dots stop at or before `i`.
          assert NameStart(p) <= i;
          return p[..dotIndex], p[dotIndex..];
        }
        i := i + 1;
      }
      // Every character from the segment start up to the last dot is a dot.
      assert NameStart(p) > dotIndex;
    }
    return p, [];
  }

  /** `splitext("/image.png")` is `("/image", ".png")`. */
  lemma ExampleImagePng()
    ensures SplitExt("/image.png") == ("/image", ".png")
    ensures Extension("/image.png") == ".png"
  {
    var p := "/image.png";
    LastIndexUnique(p, Sep, 0);
    assert NameStart(p) == 1;
    LastIndexUnique(p, ExtSep, 6);
    assert p[..6] == "/image" && p[6..] == ".png";
  }

  /** A path with no dot gets the default extension: `/image` gives `.jpg`. */
  lemma ExampleNoExtension()
    ensures SplitExt("/image").1 == []
    ensures Extension("/image") == DefaultExt
  {
    LastIndexUnique("/image", ExtSep, -1);
  }

  /** Leading dots are not an extension: `splitext("/.png")` has none. */
  lemma ExampleLeadingDot()
    ensures SplitExt("/.png").1 == []
    ensures Extension("/.png") == DefaultExt
  {
    var p := "/.png";
    LastIndexUnique(p, Sep, 0);
    LastIndexUnique(p, ExtSep, 1);
    assert NameStart(p) == 2;
  }

  /** A trailing dot is an extension of its own: `splitext("/a.")` gives `"."`. */
  lemma ExampleTrailingDot()
    ensures SplitExt("/a.") == ("/a", ".")
    ensures Extension("/a.") == "."
  {
    var p := "/a.";
    LastIndexUnique(p, Sep, 0);
    assert NameStart(p) == 1;
    LastIndexUnique(p, ExtSep, 2);
    assert p[..2] == "/a" && p[2..] == ".";
  }

  /** A dot in an earlier segment is not an extension: `/a.b/c` has none. */
  lemma ExampleDotInDirectory()
    ensures SplitExt("/a.b/c").1 == []
  {
    var p := "/a.b/c";
    LastIndexUnique(p, Sep, 4);
    LastIndexUnique(p, ExtSep, 2);
  }
}

=== FILE: retry.dfy ===
/**
  The retry loop of `download_image`. Each attempt's outcome is abstracted
  to a value: a response with its status and whether reading the body,
  opening the file and writing it all completed, or a transport error. The
  loop is modelled as the trace of events it produces: one `Get` per
  attempt, a `Write` when the file is saved, and for a failed attempt
  either a warning and a backoff delay (more attempts remain) or the final
  error message (it was the last attempt).
 */
module Retry {

  /** The `retries` default of `download_image`; the program always uses it. */
  const DefaultRetries: int := 3

  /** The delay between two attempts of one download, in milliseconds. */
  const BackoffMs: nat := 1000

  /** What one attempt met. `saved` is false when reading the body, opening
      the file or writing it raised. */
  datatype Outcome = Response(status: int, saved: bool) | TransportError

  /** An attempt succeeds when the status is 200 and the file was written. */
  predicate Succeeds(o: Outcome) {
    o.Response? && o.status == 200 && o.saved
  }

  /** The observable steps of one download. Attempts are numbered from 1, as
      in the program's messages. */
  datatype Event =
    | Get(attempt: nat)
    | Write(attempt: nat)
    | Warn(attempt: nat, retries: int)
    | Backoff(ms: nat)
    | FinalError(retries: int)

  /** The loop from 0-based attempt `k` on; `outcome(k)` is what attempt `k`
      meets. */
  function AttemptsFrom(retries: int, outcome: nat -> Outcome, k: nat): seq<Event>
    decreases retries - k
  {
    if retries <= k then []
    else if Succeeds(outcome(k)) then [Get(k + 1), Write(k + 1)]
    else if k < retries - 1 then [Get(k + 1), Warn(k + 1, retries), Backoff(BackoffMs)] + AttemptsFrom(retries, outcome, k + 1)
    else [Get(k + 1), FinalError(retries)]
  }

  /** The events of one call `download_image(..., retries)`. */
  function DownloadTrace(retries: int, outcome: nat -> Outcome): seq<Event> {
    AttemptsFrom(retries, outcome, 0)
  }

  /** `download_image` as the loop it is: `for attempt in range(retries)`,
      returning as soon as the file is written. */
  method DownloadImage(retries: int, outcome: nat -> Outcome) returns (trace: seq<Event>)
    ensures trace == DownloadTrace(retries, outcome)
  {
    trace := [];
    var attempt: nat := 0;
    while attempt < retries
      invariant trace + AttemptsFrom(retries, outcome, attempt) == DownloadTrace(retries, outcome)
      decreases retries - attempt
    {
      ghost var before := trace;
      if Succeeds(outcome(attempt)) {
        trace := trace + [Get(attempt + 1), Write(attempt + 1)];
        return;
      }
      if attempt < retries - 1 {
        var retried := [Get(attempt + 1), Warn(attempt + 1, retries), Backoff(BackoffMs)];
        trace := trace + retried;
        assert (before + retried) + AttemptsFrom(retries, outcome, attempt + 1) ==
          before + (retried + AttemptsFrom(retries, outcome, attempt + 1));
      } else {
        trace := trace + [Get(attempt + 1), FinalError(retries)];
      }
      attempt := attempt + 1;
    }
  }

  /** The kinds of event, for counting. */
  datatype Kind = GetKind | WriteKind | WarnKind | BackoffKind | FinalErrorKind

  /** The kinds a failed attempt that is retried produces. */
  predicate IsRetryKind(kind: Kind) {
    kind == GetKind || kind == WarnKind || kind == BackoffKind
  }

  function KindOf(e: Event): Kind {
    match e
    case Get(_) => GetKind
    case Write(_) => WriteKind
    case Warn(_, _) => WarnKind
    case Backoff(_) => BackoffKind
    case FinalError(_) => FinalErrorKind
  }

  /** How many events of a kind a trace holds. */
  function Count(trace: seq<Event>, kind: Kind): (n: nat)
    ensures n <= |trace|
    decreases |trace|
  {
    if |trace| == 0 then 0
    else (if KindOf(trace[0]) == kind then 1 else 0) + Count(trace[1..], kind)
  }

  lemma CountCons(e: Event, rest: seq<Event>, kind: Kind)
    ensures Count([e] + rest, kind) == (if KindOf(e) == kind then 1 else 0) + Count(rest, kind)
  {
    assert ([e] + rest)[1..] == rest;
  }

  /** Attempt `k` (0-based) is the first that succeeds within the bound. */
  predicate FirstSuccessAt(retries: int, outcome: nat -> Outcome, k: nat) {
    && k < retries
    && Succeeds(outcome(k))
    && forall j :: 0 <= j < k ==> !Succeeds(outcome(j))
  }

  /** No attempt within the bound succeeds. */
  predicate AllFail(retries: int, outcome: nat -> Outcome) {
    forall j :: 0 <= j < retries ==> !Succeeds(outcome(j))
  }

  /** One failed attempt that is retried: one attempt, one warning, one
      backoff. */
  lemma CountRetried(attempt: nat, retries: int, later: seq<Event>, kind: Kind)
    ensures Count([Get(attempt), Warn(attempt, retries), Backoff(BackoffMs)] + later, kind) ==
      (if IsRetryKind(kind) then 1 else 0) + Count(later, kind)
  {
    assert [Get(attempt), Warn(attempt, retries), Backoff(BackoffMs)] + later
      == [Get(attempt)] + ([Warn(attempt, retries)] + ([Backoff(BackoffMs)] + later));
    CountCons(Get(attempt), [Warn(attempt, retries)] + ([Backoff(BackoffMs)] + later), kind);
    CountCons(Warn(attempt, retries), [Backoff(BackoffMs)] + later, kind);
    CountCons(Backoff(BackoffMs), later, kind);
  }

  /** The last attempt: one attempt and then its write or its final error. */
  lemma CountLastAttempt(attempt: nat, last: Event, kind: Kind)
    ensures Count([Get(attempt), last], kind) ==
      (if kind == GetKind then 1 else 0) + (if KindOf(last) == kind then 1 else 0)
  {
    CountCons(Get(attempt), [last], kind);
    CountCons(last, [], kind);
  }

  /** `n` failed attempts, numbered from `first`, each followed by a
      warning and a backoff, and then the events `rest`. */
  function WithRetries(retries: int, first: nat, n: nat, rest: seq<Event>): (trace: seq<Event>)
    ensures |trace| == 3 * n + |rest|
    decreases n
  {
    if n == 0 then rest
    else [Get(first), Warn(first, retries), Backoff(BackoffMs)] + WithRetries(retries, first + 1, n - 1, rest)
  }

  /** The retried failures add one attempt, one warning and one backoff
      each, and nothing else. */
  lemma {:induction false} WithRetriesCounts(retries: int, first: nat, n: nat, rest: seq<Event>, kind: Kind)
    ensures Count(WithRetries(retries, first, n, rest), kind) ==
      (if IsRetryKind(kind) then n else 0) + Count(rest, kind)
    decreases n
  {
    if n > 0 {
      WithRetriesCounts(retries, first + 1, n - 1, rest, kind);
      CountRetried(first, retries, WithRetries(retries, first + 1, n - 1, rest), kind);
    }
  }

  /** Unrolling: when attempts `k` to `k + m - 1` fail and each leaves
      another attempt, the loop from `k` is those retried failures followed
      by the loop from `k + m`. */
  lemma {:induction false} Unroll(retries: int, outcome: nat -> Outcome, k: nat, m: nat)
    requires k + m < retries
    requires forall j :: k <= j < k + m ==> !Succeeds(outcome(j))
    ensures AttemptsFrom(retries, outcome, k) == WithRetries(retries, k + 1, m, AttemptsFrom(retries, outcome, k + m))
    decreases m
  {
    if m > 0 {
      Unroll(retries, outcome, k + 1, m - 1);
    }
  }

  /** The whole trace, case by case: nothing at all when `retries <= 0`; the
      failed attempts, each with warning and backoff, then the successful
      attempt and its write; or, when every attempt fails, the failed
      attempts and the last one with the final error and no backoff. */
  lemma DownloadTraceShape(retries: int, outcome: nat -> Outcome)
    ensures retries <= 0 ==> DownloadTrace(retries, outcome) == []
    ensures forall k: nat :: FirstSuccessAt(retries, outcome, k) ==>
      DownloadTrace(retries, outcome) == WithRetries(retries, 1, k, [Get(k + 1), Write(k + 1)])
    ensures retries > 0 && AllFail(retries, outcome) ==>
      DownloadTrace(retries, outcome) == WithRetries(retries, 1, retries - 1, [Get(retries), FinalError(retries)])
  {
    forall k: nat | FirstSuccessAt(retries, outcome, k)
      ensures DownloadTrace(retries, outcome) == WithRetries(retries, 1, k, [Get(k + 1), Write(k + 1)])
    {
      Unroll(retries, outcome, 0, k);
    }
    if retries > 0 && AllFail(retries, outcome) {
      Unroll(retries, outcome, 0, retries - 1);
    }
  }

  lemma LastOfWithRetries(retries: int, first: nat, n: nat, rest: seq<Event>)
    requires |rest| > 0
    ensures WithRetries(retries, first, n, rest)[3 * n + |rest| - 1] == rest[|rest| - 1]
    decreases n
  {
    if n > 0 {
      LastOfWithRetries(retries, first + 1, n - 1, rest);
    }
  }

  /** Success on attempt k+1 (0-based `k`): exactly k+1 attempts, one write,
      k warnings and k backoffs, and no final error; the write is the last
      event, so nothing is tried after it. */
  lemma SuccessCounts(retries: int, outcome: nat -> Outcome, k: nat)
    requires FirstSuccessAt(retries, outcome, k)
    ensures var trace := DownloadTrace(retries, outcome);
      && Count(trace, GetKind) == k + 1
      && Count(trace, WriteKind) == 1
      && Count(trace, WarnKind) == k
      && Count(trace, BackoffKind) == k
      && Count(trace, FinalErrorKind) == 0
      && trace[|trace| - 1] == Write(k + 1)
  {
    DownloadTraceShape(retries, outcome);
    var tail := [Get(k + 1), Write(k + 1)];
    LastOfWithRetries(retries, 1, k, tail);
    forall kind: Kind
      ensures Count(DownloadTrace(retries, outcome), kind) ==
        (if IsRetryKind(kind) then k else 0) + Count(tail, kind)
      ensures Count(tail, kind) == (if kind == GetKind || kind == WriteKind then 1 else 0)
    {
      WithRetriesCounts(retries, 1, k, tail, kind);
      CountLastAttempt(k + 1, Write(k + 1), kind);
    }
  }

  /** Every attempt fails: exactly `retries` attempts, `retries - 1`
      warnings and backoffs, one final error and no write; the final error
      is the last event, so no backoff follows the last attempt. */
  lemma FailureCounts(retries: int, outcome: nat -> Outcome)
    requires retries > 0 && AllFail(retries, outcome)
    ensures var trace := DownloadTrace(retries, outcome);
      && Count(trace, GetKind) == retries
      && Count(trace, WriteKind) == 0
      && Count(trace, WarnKind) == retries - 1
      && Count(trace, BackoffKind) == retries - 1
      && Count(trace, FinalErrorKind) == 1
      && trace[|trace| - 1] == FinalError(retries)
  {
    DownloadTraceShape(retries, outcome);
    var tail := [Get(retries), FinalError(retries)];
    LastOfWithRetries(retries, 1, retries - 1, tail);
    forall kind: Kind
      ensures Count(DownloadTrace(retries, outcome), kind) ==
        (if IsRetryKind(kind) then retries - 1 else 0) + Count(tail, kind)
      ensures Count(tail, kind) == (if kind == GetKind || kind == FinalErrorKind then 1 else 0)
    {
      WithRetriesCounts(retries, 1, retries - 1, tail, kind);
      CountLastAttempt(retries, FinalError(retries), kind);
    }
  }

  /** Some attempt within the bound succeeds. */
  predicate SomeAttemptSucceeds(retries: int, outcome: nat -> Outcome) {
    exists k: nat :: k < retries && Succeeds(outcome(k))
  }

  /** If some attempt within the bound succeeds, a first one does. */
  lemma {:induction false} FirstSuccessExists(retries: int, outcome: nat -> Outcome, k: nat)
    requires k < retries && Succeeds(outcome(k))
    ensures exists f: nat :: f <= k && FirstSuccessAt(retries, outcome, f)
    decreases k
  {
    if !FirstSuccessAt(retries, outcome, k) {
      var j :| 0 <= j < k && Succeeds(outcome(j));
      FirstSuccessExists(retries, outcome, j);
    }
  }

  /** A file is written (once) exactly when some attempt within the bound
      gets status 200 and its write completes; there are never more than
      `retries` attempts, and none at all when `retries <= 0`. */
  lemma WrittenIffSomeAttemptSucceeds(retries: int, outcome: nat -> Outcome)
    ensures Count(DownloadTrace(retries, outcome), WriteKind) <= 1
    ensures Count(DownloadTrace(retries, outcome), WriteKind) == 1 <==> SomeAttemptSucceeds(retries, outcome)
    ensures Count(DownloadTrace(retries, outcome), GetKind) <= if retries > 0 then retries else 0
  {
    if retries <= 0 {
      DownloadTraceShape(retries, outcome);
    } else if SomeAttemptSucceeds(retries, outcome) {
      var k: nat :| k < retries && Succeeds(outcome(k));
      FirstSuccessExists(retries, outcome, k);
      var f: nat :| f <= k && FirstSuccessAt(retries, outcome, f);
      SuccessCounts(retries, outcome, f);
    } else {
      FailureCounts(retries, outcome);
    }
  }

  /** Each backoff in `trace` is immediately followed by an attempt. */
  predicate BackoffThenAttempt(trace: seq<Event>) {
    forall i :: 0 <= i < |trace| && trace[i].Backoff? ==> i + 1 < |trace| && trace[i + 1].Get?
  }

  /** Every backoff is followed by another attempt: no delay is spent after
      the last attempt. */
  lemma {:induction false} BackoffOnlyBeforeRetry(retries: int, outcome: nat -> Outcome, k: nat)
    ensures BackoffThenAttempt(AttemptsFrom(retries, outcome, k))
    decreases retries - k
  {
    var trace := AttemptsFrom(retries, outcome, k);
    if retries <= k {
      assert trace == [];
    } else if Succeeds(outcome(k)) {
      assert trace == [Get(k + 1), Write(k + 1)];
    } else if k < retries - 1 {
      BackoffOnlyBeforeRetry(retries, outcome, k + 1);
      var rest := AttemptsFrom(retries, outcome, k + 1);
      assert |rest| > 0 && rest[0] == Get(k + 2);
      assert trace == [Get(k + 1), Warn(k + 1, retries), Backoff(BackoffMs)] + rest;
      forall i | 0 <= i < |trace| && trace[i].Backoff?
        ensures i + 1 < |trace| && trace[i + 1].Get?
      {
        if i >= 3 {
          assert rest[i - 3] == trace[i];
          assert BackoffThenAttempt(rest);
          assert i - 2 < |rest| && rest[i - 2].Get?;
          assert trace[i + 1] == rest[i - 2];
        }
      }
    } else {
      assert trace == [Get(k + 1), FinalError(retries)];
    }
  }

  /** A non-200 status, a transport error and a failed write are handled
      alike: the trace depends only on which attempts succeed. */
  lemma {:induction false} OnlySuccessMatters(retries: int, o1: nat -> Outcome, o2: nat -> Outcome, k: nat)
    requires forall j :: k <= j < retries ==> Succeeds(o1(j)) == Succeeds(o2(j))
    ensures AttemptsFrom(retries, o1, k) == AttemptsFrom(retries, o2, k)
    decreases retries - k
  {
    if k < retries && !Succeeds(o1(k)) && k < retries - 1 {
      OnlySuccessMatters(retries, o1, o2, k + 1);
    }
  }

  /** With the default bound, failing twice and then succeeding makes three
      attempts, two warnings, two backoffs and one write. */
  lemma ExampleThirdAttemptSucceeds(outcome: nat -> Outcome)
    requires !Succeeds(outcome(0)) && !Succeeds(outcome(1)) && Succeeds(outcome(2))
    ensures DownloadTrace(DefaultRetries, outcome) ==
      [Get(1), Warn(1, 3), Backoff(1000), Get(2), Warn(2, 3), Backoff(1000), Get(3), Write(3)]
  {
  }
}

=== FILE: run.dfy ===
/**
  The whole run of `main`: fetch the manifest, check it, make sure the
  `downloads` directory exists, then walk the `data` mapping, download each
  qualifying entry's image and wait a pacing delay after each. The run is
  modelled as the trace of its observable steps; the network answers are
  parameters.
 */
module Run {
  import opened Tasks
  import opened Retry

  /** The delay after each task, in milliseconds. */
  const PacingMs: nat := 250

  /** The `data` value of the manifest: `NoData` when the key is missing or
      its value is null or another falsy value; otherwise the mapping's
      entries in iteration order (an empty mapping is falsy too). */
  datatype DataField = NoData | DataMapping(entries: Data)

  /** The manifest body: not a JSON object (not JSON at all, or a JSON value
      without `.get`), or an object with its `data` field. */
  datatype Body = NotJsonObject | JsonObject(data: DataField)

  /** The answer to the manifest request. */
  datatype ManifestResponse = ManifestResponse(status: int, body: Body)

  /** The observable steps of a run. */
  datatype RunEvent =
    | FatalError                              // the message of `main`'s handler; the run ends
    | MakeDir                                 // `os.makedirs` and its message
    | Found(index: nat)                       // "Found image URL!"; the index is a label of the model, the message prints none
    | Download(task: Task, events: seq<Event>) // one call of `download_image`
    | Saved(task: Task)                       // "Saved image to <its file>", printed after every call
    | Pace(ms: nat)                           // the delay after a task

  /** The manifest passes `main`'s checks: status 200, a JSON object, and a
      truthy `data` mapping. */
  predicate ManifestUsable(resp: ManifestResponse) {
    && resp.status == 200
    && resp.body.JsonObject?
    && resp.body.data.DataMapping?
    && resp.body.data.entries != []
  }

  /** What one task contributes, `network(index)` giving the outcome of each
      attempt of the task with that index. */
  function TaskBlock(t: Task, network: nat -> nat -> Outcome): seq<RunEvent> {
    [Found(t.index), Download(t, DownloadTrace(DefaultRetries, network(t.index))), Saved(t), Pace(PacingMs)]
  }

  /** The loop over `data.items()` from `file_index = next`, downloading as
      it goes. The index advances after every call of `download_image`,
      whatever that call achieved, because the call always returns. */
  function LoopFrom(entries: Data, next: nat, parse: string -> ParsedUrl, network: nat -> nat -> Outcome): seq<RunEvent>
    decreases |entries|
  {
    if |entries| == 0 then []
    else if Qualifies(entries[0].1) then
      TaskBlock(TaskFor(next, entries[0].1.dhd.s, parse), network) + LoopFrom(entries[1..], next + 1, parse, network)
    else LoopFrom(entries[1..], next, parse, network)
  }

  /** The events of a list of tasks run one after the other. */
  function TaskEvents(tasks: seq<Task>, network: nat -> nat -> Outcome): (trace: seq<RunEvent>)
    ensures |trace| == 4 * |tasks|
    decreases |tasks|
  {
    if |tasks| == 0 then [] else TaskBlock(tasks[0], network) + TaskEvents(tasks[1..], network)
  }

  /** The trace of `main`. */
  function RunTrace(resp: ManifestResponse, dirExists: bool, parse: string -> ParsedUrl, network: nat -> nat -> Outcome): seq<RunEvent> {
    if !ManifestUsable(resp) then [FatalError]
    else (if dirExists then [] else [MakeDir]) + LoopFrom(resp.body.data.entries, 1, parse, network)
  }

  /** Downloading while deriving the tasks is the same as deriving the
      tasks first and then downloading them in order. */
  lemma {:induction false} LoopFollowsTasks(entries: Data, next: nat, parse: string -> ParsedUrl, network: nat -> nat -> Outcome)
    ensures LoopFrom(entries, next, parse, network) == TaskEvents(TasksFrom(entries, next, parse), network)
    decreases |entries|
  {
    if |entries| > 0 {
      if Qualifies(entries[0].1) {
        LoopFollowsTasks(entries[1..], next + 1, parse, network);
        var t := TaskFor(next, entries[0].1.dhd.s, parse);
        var rest := TasksFrom(entries[1..], next + 1, parse);
        assert TasksFrom(entries, next, parse) == [t] + rest;
        assert ([t] + rest)[1..] == rest;
      } else {
        LoopFollowsTasks(entries[1..], next, parse, network);
      }
    }
  }

  /** `trace` holds the four events of task `t` from position `at` on:
      found, downloaded, reported, paced. */
  predicate BlockAt(trace: seq<RunEvent>, at: int, t: Task, network: nat -> nat -> Outcome) {
    && 0 <= at && at + 4 <= |trace|
    && trace[at] == Found(t.index)
    && trace[at + 1] == Download(t, DownloadTrace(DefaultRetries, network(t.index)))
    && trace[at + 2] == Saved(t)
    && trace[at + 3] == Pace(PacingMs)
  }

  /** Putting events in front moves every block by their number. */
  lemma BlockAtShift(prefix: seq<RunEvent>, trace: seq<RunEvent>, at: int, t: Task, network: nat -> nat -> Outcome)
    requires BlockAt(trace, at, t, network)
    ensures BlockAt(prefix + trace, |prefix| + at, t, network)
  {
  }

  /** Task `i` of the list occupies events `4 * i` to `4 * i + 3`. */
  lemma {:induction false} TaskEventsBlocks(tasks: seq<Task>, network: nat -> nat -> Outcome)
    ensures BlocksFrom(TaskEvents(tasks, network), 0, tasks, network)
    decreases |tasks|
  {
    if |tasks| > 0 {
      TaskEventsBlocks(tasks[1..], network);
      var trace := TaskEvents(tasks, network);
      var first := TaskBlock(tasks[0], network);
      var rest := TaskEvents(tasks[1..], network);
      assert trace == first + rest;
      forall i | 0 <= i < |tasks|
        ensures BlockAt(trace, 4 * i, tasks[i], network)
      {
        if i > 0 {
          assert tasks[1..][i - 1] == tasks[i];
          assert BlockAt(rest, 4 * (i - 1), tasks[i], network);
          BlockAtShift(first, rest, 4 * (i - 1), tasks[i], network);
        }
      }
    }
  }

  /** No task event is the fatal error. */
  lemma {:induction false} TaskEventsNotFatal(tasks: seq<Task>, network: nat -> nat -> Outcome)
    ensures FatalError !in TaskEvents(tasks, network)
    decreases |tasks|
  {
    if |tasks| > 0 {
      TaskEventsNotFatal(tasks[1..], network);
    }
  }

  /** The run's events after the manifest checks are the task events. */
  lemma RunTraceTasks(resp: ManifestResponse, dirExists: bool, parse: string -> ParsedUrl, network: nat -> nat -> Outcome)
    requires ManifestUsable(resp)
    ensures RunTrace(resp, dirExists, parse, network) ==
      (if dirExists then [] else [MakeDir]) + TaskEvents(DeriveTasks(resp.body.data.entries, parse), network)
  {
    LoopFollowsTasks(resp.body.data.entries, 1, parse, network);
  }

  /** The fatal path: a non-200 status, a body that is not a JSON object, or
      a missing or empty `data` ends the run with its error message and
      nothing else — no directory, no download; and a manifest that passes
      the checks never ends that way. */
  lemma FatalPath(resp: ManifestResponse, dirExists: bool, parse: string -> ParsedUrl, network: nat -> nat -> Outcome)
    ensures RunTrace(resp, dirExists, parse, network) == [FatalError] <==> !ManifestUsable(resp)
    ensures ManifestUsable(resp) ==> FatalError !in RunTrace(resp, dirExists, parse, network)
  {
    if ManifestUsable(resp) {
      var tasks := DeriveTasks(resp.body.data.entries, parse);
      RunTraceTasks(resp, dirExists, parse, network);
      TaskEventsNotFatal(tasks, network);
      var trace := RunTrace(resp, dirExists, parse, network);
      assert FatalError !in trace;
    }
  }

  /** The directory is created exactly when it was missing, and then before
      anything else happens. */
  lemma MakeDirWhenMissing(resp: ManifestResponse, dirExists: bool, parse: string -> ParsedUrl, network: nat -> nat -> Outcome)
    requires ManifestUsable(resp)
    ensures MakeDir in RunTrace(resp, dirExists, parse, network) <==> !dirExists
    ensures !dirExists ==> RunTrace(resp, dirExists, parse, network)[0] == MakeDir
  {
    var tasks := DeriveTasks(resp.body.data.entries, parse);
    RunTraceTasks(resp, dirExists, parse, network);
    TaskEventsMakeNoDir(tasks, network);
  }

  lemma {:induction false} TaskEventsMakeNoDir(tasks: seq<Task>, network: nat -> nat -> Outcome)
    ensures MakeDir !in TaskEvents(tasks, network)
    decreases |tasks|
  {
    if |tasks| > 0 {
      TaskEventsMakeNoDir(tasks[1..], network);
    }
  }

  /** `trace` holds the blocks of `tasks`, one after the other, from
      position `start` on. */
  predicate BlocksFrom(trace: seq<RunEvent>, start: int, tasks: seq<Task>, network: nat -> nat -> Outcome) {
    forall i :: 0 <= i < |tasks| ==> BlockAt(trace, start + 4 * i, tasks[i], network)
  }

  /** Putting events in front of a list of task blocks moves them all. */
  lemma ShiftBlocks(prefix: seq<RunEvent>, events: seq<RunEvent>, tasks: seq<Task>, network: nat -> nat -> Outcome)
    requires BlocksFrom(events, 0, tasks, network)
    ensures BlocksFrom(prefix + events, |prefix|, tasks, network)
  {
    forall i | 0 <= i < |tasks|
      ensures BlockAt(prefix + events, |prefix| + 4 * i, tasks[i], network)
    {
      BlockAtShift(prefix, events, 4 * i, tasks[i], network);
    }
  }

  /** A run that passes the manifest checks: after the optional directory
      creation come exactly four events per qualifying entry, in mapping
      order — found, the download of the task with index i + 1, the "saved"
      message, and one pacing delay of 250 ms, the last task included. Every
      task is downloaded whatever the earlier downloads did. */
  lemma RunShape(resp: ManifestResponse, dirExists: bool, parse: string -> ParsedUrl, network: nat -> nat -> Outcome)
    requires ManifestUsable(resp)
    ensures var trace := RunTrace(resp, dirExists, parse, network);
      var tasks := DeriveTasks(resp.body.data.entries, parse);
      var start := if dirExists then 0 else 1;
      && |trace| == start + 4 * |QualifyingUrls(resp.body.data.entries)|
      && BlocksFrom(trace, start, tasks, network)
  {
    var tasks := DeriveTasks(resp.body.data.entries, parse);
    var prefix: seq<RunEvent> := if dirExists then [] else [MakeDir];
    RunTraceTasks(resp, dirExists, parse, network);
    TaskEventsBlocks(tasks, network);
    ShiftBlocks(prefix, TaskEvents(tasks, network), tasks, network);
  }

  /** The download event of the block of the task numbered i + 1 records a
      write exactly when one of that task's attempts succeeds, and the
      "saved" message follows it either way. */
  lemma BlockWritten(trace: seq<RunEvent>, start: int, tasks: seq<Task>, network: nat -> nat -> Outcome, i: nat)
    requires BlocksFrom(trace, start, tasks, network)
    requires i < |tasks| && tasks[i].index == i + 1
    ensures 0 <= start + 4 * i + 1 < |trace| && trace[start + 4 * i + 1].Download?
    ensures Count(trace[start + 4 * i + 1].events, WriteKind) == 1 <==> SomeAttemptSucceeds(DefaultRetries, network(i + 1))
    ensures start + 4 * i + 2 < |trace| && trace[start + 4 * i + 2] == Saved(tasks[i])
  {
    assert BlockAt(trace, start + 4 * i, tasks[i], network);
    WrittenIffSomeAttemptSucceeds(DefaultRetries, network(i + 1));
  }

  /** Task i's file is written exactly when one of its three attempts gets
      status 200 and completes its write; the "saved" message for it is
      reported whether or not it was written. */
  lemma TaskWrittenIff(resp: ManifestResponse, dirExists: bool, parse: string -> ParsedUrl, network: nat -> nat -> Outcome, i: nat)
    requires ManifestUsable(resp)
    requires i < |QualifyingUrls(resp.body.data.entries)|
    ensures var trace := RunTrace(resp, dirExists, parse, network);
      var start := if dirExists then 0 else 1;
      && start + 4 * i + 1 < |trace|
      && trace[start + 4 * i + 1].Download?
      && (Count(trace[start + 4 * i + 1].events, WriteKind) == 1 <==> SomeAttemptSucceeds(DefaultRetries, network(i + 1)))
      && start + 4 * i + 2 < |trace|
      && trace[start + 4 * i + 2].Saved?
      && trace[start + 4 * i + 2].task.index == i + 1
  {
    RunShape(resp, dirExists, parse, network);
    BlockWritten(RunTrace(resp, dirExists, parse, network), if dirExists then 0 else 1, DeriveTasks(resp.body.data.entries, parse), network, i);
  }

  /** The last block of a run of tasks ends with a pacing delay. */
  lemma LastBlockPaced(trace: seq<RunEvent>, start: int, tasks: seq<Task>, network: nat -> nat -> Outcome)
    requires tasks != [] && 0 <= start && |trace| == start + 4 * |tasks|
    requires BlocksFrom(trace, start, tasks, network)
    ensures |trace| > start && trace[|trace| - 1] == Pace(PacingMs)
  {
    assert BlockAt(trace, start + 4 * (|tasks| - 1), tasks[|tasks| - 1], network);
  }

  /** The pacing delay follows every task, the last one included: a run
      that found at least one image ends with a delay, and a run that found
      none ends right after the optional directory creation. */
  lemma RunEndsWithPace(resp: ManifestResponse, dirExists: bool, parse: string -> ParsedUrl, network: nat -> nat -> Outcome)
    requires ManifestUsable(resp)
    ensures var trace := RunTrace(resp, dirExists, parse, network);
      var start := if dirExists then 0 else 1;
      && (QualifyingUrls(resp.body.data.entries) != [] ==> |trace| > start && trace[|trace| - 1] == Pace(PacingMs))
      && (QualifyingUrls(resp.body.data.entries) == [] ==> |trace| == start)
  {
    RunShape(resp, dirExists, parse, network);
    var tasks := DeriveTasks(resp.body.data.entries, parse);
    if tasks != [] {
      LastBlockPaced(RunTrace(resp, dirExists, parse, network), if dirExists then 0 else 1, tasks, network);
    }
  }
}

=== FILE: tasks.dfy ===
/**
  Task derivation: the manifest's `data` mapping, read in its iteration
  order, becomes the list of download tasks. An entry takes part when it is
  truthy and its `dhd` field is truthy; each such entry gets the next file
  index, starting at 1, and a file name made of that index and the
  extension of the URL's path.
 */
module Tasks {
  import opened Decimal
  import opened PathExt

  /** The `dhd` field of an entry: missing or falsy (null, `false`, `0`,
      `[]`, `{}`; all represented as `Absent`), or a string. The empty
      string is falsy too, whether written `Absent` or `Text("")`. */
  datatype Field = Absent | Text(s: string)

  /** One value of the `data` mapping. `Falsy` stands for every value Python
      treats as false (null, `{}`, `""`, `0`, `false`, `[]`); `Mapping` is a
      non-empty object, of which only the `dhd` field is read. */
  datatype Entry = Falsy | Mapping(dhd: Field)

  /** The `data` mapping as its (key, entry) pairs in iteration order. */
  type Data = seq<(string, Entry)>

  /** The six components `urlparse` splits a URL into. The parser itself is
      not modelled: it is a parameter of the functions that need it. */
  datatype ParsedUrl = ParsedUrl(
    scheme: string, netloc: string, path: string, params: string, query: string, fragment: string)

  /** A download task: the file index, the image URL and the extension of
      the file it is saved to. */
  datatype Task = Task(index: nat, url: string, ext: string) {
    /** The name of the file the task is saved to. */
    function FileName(): string {
      FileNameOf(index, ext)
    }
  }

  /** `subproperty and subproperty.get('dhd')`: the entry is truthy and its
      `dhd` value is a non-empty string. */
  predicate Qualifies(e: Entry) {
    e.Mapping? && e.dhd.Text? && e.dhd.s != []
  }

  /** The URLs of the qualifying entries, in mapping order: the reference
      against which the task list is stated. */
  function QualifyingUrls(data: Data): (urls: seq<string>)
    ensures |urls| <= |data|
    decreases |data|
  {
    if |data| == 0 then []
    else if Qualifies(data[0].1) then [data[0].1.dhd.s] + QualifyingUrls(data[1..])
    else QualifyingUrls(data[1..])
  }

  lemma {:induction false} QualifyingUrlsAppend(a: Data, b: Data)
    ensures QualifyingUrls(a + b) == QualifyingUrls(a) + QualifyingUrls(b)
    decreases |a|
  {
    if |a| == 0 {
      assert a + b == b;
    } else {
      assert (a + b)[1..] == a[1..] + b;
      QualifyingUrlsAppend(a[1..], b);
    }
  }

  /** `f"{file_index}{ext}"`. */
  function FileNameOf(index: nat, ext: string): string {
    NatToString(index) + ext
  }

  /** The text before the first `.` (all of it when there is none). */
  function BeforeFirstDot(s: string): (t: string)
    ensures |t| <= |s| && s[..|t|] == t
    ensures forall j :: 0 <= j < |t| ==> t[j] != ExtSep
    ensures |t| < |s| ==> s[|t|] == ExtSep
    decreases |s|
  {
    if |s| == 0 || s[0] == ExtSep then [] else [s[0]] + BeforeFirstDot(s[1..])
  }

  /** A file name starts with its index: the text before its first dot is
      exactly the decimal index, whatever the extension. */
  lemma FileNameIndexPrefix(index: nat, ext: string)
    requires |ext| >= 1 && ext[0] == ExtSep
    ensures BeforeFirstDot(FileNameOf(index, ext)) == NatToString(index)
  {
    var name := FileNameOf(index, ext);
    var digits := NatToString(index);
    // The digits hold no dot, so the first dot is the extension's.
    assert name[..|digits|] == digits && name[|digits|] == ExtSep;
    assert forall j :: 0 <= j < |digits| ==> name[j] != ExtSep;
  }

  /** Two file names with different indices differ, whatever their
      extensions. */
  lemma FileNamesDistinct(i: nat, ext1: string, j: nat, ext2: string)
    requires |ext1| >= 1 && ext1[0] == ExtSep
    requires |ext2| >= 1 && ext2[0] == ExtSep
    requires i != j
    ensures FileNameOf(i, ext1) != FileNameOf(j, ext2)
  {
    FileNameIndexPrefix(i, ext1);
    FileNameIndexPrefix(j, ext2);
    NatToStringInjective(i, j);
  }

  /** The task for a URL given its index: only the path of the parsed URL
      contributes to the file name. */
  function TaskFor(index: nat, url: string, parse: string -> ParsedUrl): Task {
    Task(index, url, Extension(parse(url).path))
  }

  /** The loop over `data.items()` with `file_index` at `next`: a qualifying
      entry takes the current index and advances it, any other entry is
      passed over without using an index. */
  function TasksFrom(data: Data, next: nat, parse: string -> ParsedUrl): (tasks: seq<Task>)
    ensures |tasks| == |QualifyingUrls(data)|
    decreases |data|
  {
    if |data| == 0 then []
    else if Qualifies(data[0].1) then
      [TaskFor(next, data[0].1.dhd.s, parse)] + TasksFrom(data[1..], next + 1, parse)
    else TasksFrom(data[1..], next, parse)
  }

  /** The i-th task of the loop is the i-th qualifying URL with index
      `next + i`. */
  lemma {:induction false} TasksFromNumbering(data: Data, next: nat, parse: string -> ParsedUrl)
    ensures forall i :: 0 <= i < |TasksFrom(data, next, parse)| ==>
      TasksFrom(data, next, parse)[i] == TaskFor(next + i, QualifyingUrls(data)[i], parse)
    decreases |data|
  {
    if |data| > 0 {
      var tasks := TasksFrom(data, next, parse);
      var urls := QualifyingUrls(data);
      if Qualifies(data[0].1) {
        TasksFromNumbering(data[1..], next + 1, parse);
        var rest := TasksFrom(data[1..], next + 1, parse);
        assert tasks == [TaskFor(next, data[0].1.dhd.s, parse)] + rest;
        assert urls == [data[0].1.dhd.s] + QualifyingUrls(data[1..]);
        forall i | 0 < i < |tasks|
          ensures tasks[i] == TaskFor(next + i, urls[i], parse)
        {
          assert tasks[i] == rest[i - 1];
          assert urls[i] == QualifyingUrls(data[1..])[i - 1];
          assert next + 1 + (i - 1) == next + i;
        }
      } else {
        TasksFromNumbering(data[1..], next, parse);
      }
    }
  }

  /** The tasks of a run: the loop starts with `file_index = 1`. */
  function DeriveTasks(data: Data, parse: string -> ParsedUrl): (tasks: seq<Task>)
    ensures |tasks| == |QualifyingUrls(data)|
    ensures forall i :: 0 <= i < |tasks| ==> tasks[i].index == i + 1
    ensures forall i :: 0 <= i < |tasks| ==> tasks[i].url == QualifyingUrls(data)[i]
    ensures forall i :: 0 <= i < |tasks| ==> tasks[i].ext == Extension(parse(tasks[i].url).path)
  {
    TasksFromNumbering(data, 1, parse);
    TasksFrom(data, 1, parse)
  }

  /** The task list depends on the data only through the qualifying URLs. */
  lemma TasksDetermined(d1: Data, d2: Data, parse: string -> ParsedUrl)
    requires QualifyingUrls(d1) == QualifyingUrls(d2)
    ensures DeriveTasks(d1, parse) == DeriveTasks(d2, parse)
  {
  }

  /** An entry that does not qualify has no effect: inserting it anywhere in
      the mapping leaves every index, URL and file name unchanged. */
  lemma SkippedEntryHasNoEffect(before: Data, key: string, e: Entry, after: Data, parse: string -> ParsedUrl)
    requires !Qualifies(e)
    ensures DeriveTasks(before + [(key, e)] + after, parse) == DeriveTasks(before + after, parse)
  {
    QualifyingUrlsAppend(before + [(key, e)], after);
    QualifyingUrlsAppend(before, [(key, e)]);
    QualifyingUrlsAppend(before, after);
    assert QualifyingUrls([(key, e)]) == [];
    TasksDetermined(before + [(key, e)] + after, before + after, parse);
  }

  /** Every file name of a run starts with its task's decimal index. */
  lemma TaskFileNamesStartWithIndex(data: Data, parse: string -> ParsedUrl)
    ensures forall t :: t in DeriveTasks(data, parse) ==>
      BeforeFirstDot(t.FileName()) == NatToString(t.index)
  {
    var tasks := DeriveTasks(data, parse);
    forall t | t in tasks
      ensures BeforeFirstDot(t.FileName()) == NatToString(t.index)
    {
      var i :| 0 <= i < |tasks| && tasks[i] == t;
      FileNameIndexPrefix(t.index, Extension(parse(t.url).path));
    }
  }

  /** No two tasks of a run share a file name. */
  lemma TaskFileNamesDistinct(data: Data, parse: string -> ParsedUrl)
    ensures var tasks := DeriveTasks(data, parse);
      forall i, j :: 0 <= i < j < |tasks| ==> tasks[i].FileName() != tasks[j].FileName()
  {
    var tasks := DeriveTasks(data, parse);
    forall i, j | 0 <= i < j < |tasks|
      ensures tasks[i].FileName() != tasks[j].FileName()
    {
      var t1, t2 := tasks[i], tasks[j];
      assert t1.index == i + 1 && t2.index == j + 1;
      assert |t1.ext| >= 1 && t1.ext[0] == ExtSep;
      assert |t2.ext| >= 1 && t2.ext[0] == ExtSep;
      FileNamesDistinct(t1.index, t1.ext, t2.index, t2.ext);
    }
  }

  /** Only the path of the parsed URL matters: two URLs whose paths agree
      (whatever their query, fragment, host or scheme) get the same file
      name for the same index. */
  lemma FileNameIgnoresQueryAndFragment(index: nat, u1: string, u2: string, parse: string -> ParsedUrl)
    requires parse(u1).path == parse(u2).path
    ensures TaskFor(index, u1, parse).FileName() == TaskFor(index, u2, parse).FileName()
  {
  }

  lemma ExampleExtensions()
    ensures Extension("/img1.png") == ".png"
    ensures Extension("/img2") == DefaultExt
  {
    var p1 := "/img1.png";
    LastIndexUnique(p1, Sep, 0);
    assert NameStart(p1) == 1;
    LastIndexUnique(p1, ExtSep, 5);
    assert p1[5..] == ".png";
    LastIndexUnique("/img2", ExtSep, -1);
  }

  lemma ExampleQualifyingUrls()
    ensures QualifyingUrls([("a", Mapping(Text("https://x/img1.png"))), ("b", Falsy), ("c", Mapping(Text("https://x/img2")))])
      == ["https://x/img1.png", "https://x/img2"]
  {
    var u1, u2 := "https://x/img1.png", "https://x/img2";
    var data := [("a", Mapping(Text(u1))), ("b", Falsy), ("c", Mapping(Text(u2)))];
    assert QualifyingUrls(data[2..]) == [u2];
    assert data[1..][1..] == data[2..];
  }

  lemma ExampleFileNames()
    ensures Task(1, "https://x/img1.png", ".png").FileName() == "1.png"
    ensures Task(2, "https://x/img2", ".jpg").FileName() == "2.jpg"
  {
    assert NatToString(1) == [DigitChar(1)] == "1";
    assert NatToString(2) == [DigitChar(2)] == "2";
  }

  /** The manifest `{"a": {"dhd": "https://x/img1.png"}, "b": {}, "c": {"dhd":
      "https://x/img2"}}` yields two tasks, saved as `1.png` and `2.jpg`. */
  lemma ExampleTwoImages(parse: string -> ParsedUrl)
    requires parse("https://x/img1.png").path == "/img1.png"
    requires parse("https://x/img2").path == "/img2"
    ensures DeriveTasks([("a", Mapping(Text("https://x/img1.png"))), ("b", Falsy), ("c", Mapping(Text("https://x/img2")))], parse)
      == [Task(1, "https://x/img1.png", ".png"), Task(2, "https://x/img2", ".jpg")]
  {
    var u1, u2 := "https://x/img1.png", "https://x/img2";
    var data := [("a", Mapping(Text(u1))), ("b", Falsy), ("c", Mapping(Text(u2)))];
    ExampleQualifyingUrls();
    var tasks := DeriveTasks(data, parse);
    ExampleExtensions();
    assert tasks[0] == Task(1, u1, ".png");
    assert tasks[1] == Task(2, u2, ".jpg");
  }
}
